=== FILE: README.md ===
# Border gateway connection setup, modelled in Dafny

This project models the connection-setup decision logic of a cross-cluster
border gateway (MBG), and the service-exposure glue around it. It covers:

- the router that decides whether a connect request targets a service hosted here or one imported from a peer gateway;
- local-destination setup: admission, then the `tcp` / `mtls` / unsupported dataplane switch;
- remote-destination setup: the peer handshake, port allocation, and one forwarder;
- the forwarding plan of `ConnectService`: one direct leg, or an ingress and an egress leg joined at the policy-selected network function;
- classification of the peer's handshake reply, in the JSON variant and the connection-hijack variant;
- the accept loop of the local listener that stands in for an imported service, modelled as a fold over accept events;
- the catalog operations of the control plane (`service.go`).

Every operation is a pure function or a small method. Each takes the gateway
state (`Gateway.State`) and the answers its collaborators give (`Collaborators.Env`):

- admission decisions, or the error raising the event produced;
- port allocations, each with its error;
- the policy target for a policy name;
- the peer gateway address of a service;
- the decoded handshake reply.

The router and the two setups return the `(status, dataplaneType, target)` triple
the Go code returns. Every operation also returns the side effects it performs, in order: handshake sent,
ports allocated, forwarder spawned, receiver started, mTLS forwarder started,
listener started, socket closed.

Modules: `Wrappers`, `Protocol` (wire records, literal strings, connection and
endpoint names), `Gateway` (state and lookups), `Collaborators`, `Effects`,
`Handshake`, `Forwarding`, `Connect`, `ImportedService`, `ServiceCatalog`.

Modelling choices:
- The catalog locality test is membership of the id in the local-service map.
- A lookup of a missing id yields Go's zero value: an empty service record, or an empty port pair.
- A local service is stored as id → address.
- An imported service is stored as id → (address, owning gateway).
- The model follows the code as written:
  - `AddRemoteService` records the service (service.go:38) before the admission event is raised (service.go:40), so the record survives a Deny.
  - The listener's accept loop asks no admission question, although the comments at connect.go:190-192 and 218 name policy checks as the intent. The loop only looks up the client and performs the handshake.
  - Where a finding below corrects the code, the as-written member is what the composed operations use (`Connect.Connect`, `ImportedService.Loop`, `ImportedService.Serve`). The corrected one sits beside it (`Connect.ConnectIntended`, `ImportedService.LoopIntended`), with a lemma relating the two.

## Model

| member | source | states |
|---|---|---|
| Protocol.SplitConnectionId | pkg/mbgDataplane/connect.go:40 | reading a key back splits it at its first ':'; it is None exactly when the key has no ':', and otherwise gives back a colon-free source id whose key is the input |
| Protocol.ConnectionIdRoundTrip | tests/aux/kindAux.py:50 | a connection key `src:dst` built from a colon-free source id reads back as exactly that (src, dst) pair |
| Protocol.ConnectionIdInjective | pkg/mbgDataplane/connect.go:72 | two connections with colon-free source ids share a key only if both ids are equal |
| Protocol.ColonInSourceCollides | pkg/mbgDataplane/connect.go:40 | without that restriction the key is ambiguous: ("a:b","c") and ("a","b:c") get the same key |
| Protocol.FirstColon | pkg/mbgDataplane/connect.go:40 | the position returned is the first ':' of the string, or its length when it has none |
| Protocol.RemoteEndpointRoundTrip | pkg/mbgDataplane/connect.go:59-60 | an mTLS endpoint name starts with the connection key followed by '-', and its suffix is the unique id |
| Protocol.RemoteEndpointFresh | pkg/mbgDataplane/connect.go:59-60 | for one connection, two endpoint names are equal exactly when their unique suffixes are equal |
| Handshake.ConnectPostReq | pkg/mbgDataplane/connect.go:150-164 | no error exactly when the message is "Success"; the already-setup error exactly when it is "Connection already setup!"; the generic failure exactly for any other message; a decode error is passed through; type and target survive only for success and already-setup |
| Handshake.ConnectReq | pkg/mbgDataplane/connect.go:177-187 | the hijack variant keeps the socket on success and on "Connection already setup!", and drops it with the generic failure otherwise |
| Handshake.ToleratedByExactMessage | pkg/mbgDataplane/connect.go:236-256 | comparing the error text with "Connection already setup!" lets through exactly the success and already-setup replies, in both variants |
| Forwarding.ConnectService | pkg/mbgDataplane/connect.go:107-133 | the corrected plan (outbound socket attached as at line 116 in both branches): one leg when the policy target is empty and two otherwise; the legs form a path from the listen address to the service address; the two legs meet at the policy target; the inbound socket is on the first leg's source side and the outbound one on the last leg's destination side; every leg carries the connection name |
| Forwarding.ConnectServiceAsWritten | pkg/mbgDataplane/connect.go:119-133 | as written: one leg holding both sockets when the policy target is empty; otherwise the same path through the target, every leg named after the connection, the inbound socket on the ingress leg's source side with nothing on its destination side, and the outbound socket set as the egress leg's server (source-side) connection, leaving its destination side empty |
| Forwarding.SplitMisplacesClientConn | pkg/mbgDataplane/connect.go:125-130 | the as-written plan equals the intended one without a policy target; with a target and an outbound socket it breaks the sockets-at-the-ends property |
| Forwarding.SplitKeepsEndpoints | pkg/mbgDataplane/connect.go:119-124 | inserting a network function keeps the path's start, end and both sockets, and the ingress and egress legs meet exactly at the function |
| Connect.ConnectLocalService | pkg/mbgDataplane/connect.go:38-69 | success exactly when admission decided other than Deny and the dataplane is tcp or mtls, otherwise ("failure","","") with no effects; tcp spawns exactly one forwarder from "use connect mode" to the local service address holding the inbound socket; mtls starts exactly one receiver and replies with the endpoint `src:dst-uid`; nothing contacts a peer or allocates ports |
| Connect.RemoteSetup | pkg/mbgDataplane/connect.go:71-98 | the handshake to the owner's gateway always comes first; a handshake error not tolerated gives ("Failure","tcp",dest) and nothing else; a port error gives (error text,"tcp",external) and nothing else; otherwise ("Success","tcp",external) after allocating that pair and spawning one forwarder from its local port to `destIp:dest`; something is spawned exactly when both steps passed |
| Connect.ConnectRemoteServiceAsWritten | pkg/mbgDataplane/connect.go:77-81 | as written, an already-setup handshake reply ends in "Failure" before any port is allocated or forwarder spawned |
| Connect.ConnectRemoteService | pkg/mbgDataplane/connect.go:71-98 | with the compared text corrected, an already-setup reply with free ports proceeds to "Success" and spawns a forwarder |
| Connect.Connect | pkg/mbgDataplane/connect.go:22-33 | the router as written takes the local path (never contacting a peer) exactly when the destination is in the local catalog; the local path answers "Success" exactly when admission decided other than Deny and the dataplane is tcp or mtls, and ("failure","","") otherwise; the remote path always answers type "tcp"; with an accepted handshake and free ports it answers ("Success","tcp",external port) and spawns a forwarder; on an already-setup reply it answers "Failure" with nothing allocated or spawned |
| Connect.ConnectIntended | pkg/mbgDataplane/connect.go:22-33 | the router with the corrected remote setup: the same local/remote split, and an already-setup reply with free ports ends in "Success" with a forwarder spawned |
| Connect.RouterCorrectionScope | pkg/mbgDataplane/connect.go:71-81 | the two routers give the same result and effects whenever both compared texts treat the handshake error alike; on an already-setup reply with free ports the router as written fails and the corrected one succeeds |
| Connect.SameCatalogSameBranch | pkg/mbgDataplane/connect.go:25-32 | two calls with the same local catalog and destination take the same path, whatever else differs |
| Connect.DenyMeansNothingSpawned | pkg/mbgDataplane/connect.go:44-51 | for a local destination, an admission error or Deny yields ("failure","","") and no effect at all |
| Connect.LocalTcpPlan | pkg/mbgDataplane/connect.go:53-57 | tcp local setup answers ("Success","tcp","use connect mode"); its single forwarding goroutine, run through the as-written leg plan, plans a path ending at the local service, holding the hijacked socket on its first leg, split at the policy target when there is one |
| Connect.MtlsTargetsFresh | pkg/mbgDataplane/connect.go:58-65 | mtls local setup answers "Success" with type mtls and a target prefixed by `src:dst-`; two setups of the same pair have equal targets exactly when their suffixes are equal |
| Connect.AlreadySetupTreatment | pkg/mbgDataplane/connect.go:77-97 | on an already-setup reply with free ports, the as-written setup reports "Failure" while the corrected one reports "Success" and spawns the forwarder |
| Connect.PeerSetupAgreement | pkg/mbgDataplane/connect.go:155-164 | assuming the peer's control plane sends the setup triple back as message, connect type and connect destination, a requester classifying a peer's local-setup reply gets no error exactly when the peer succeeded, and then receives the peer's dataplane and target; otherwise it gets the generic failure and the peer spawned nothing |
| ImportedService.AcceptStepAsWritten | pkg/mbgDataplane/connect.go:210-216 | as written, an accept error crashes (the nil connection's address is read before the error check); an accepted connection proceeds with its own socket |
| ImportedService.AcceptStep | pkg/mbgDataplane/connect.go:210-216 | with the error checked first, an accept error stops the loop with that error and never crashes; an accepted connection proceeds with its own socket |
| ImportedService.AcceptErrorCrashesAsWritten | pkg/mbgDataplane/connect.go:211-216 | on the same accept error the as-written head crashes where the corrected one returns the error |
| ImportedService.HandleConnection | pkg/mbgDataplane/connect.go:221-262 | a failed client lookup only closes the client socket, and no peer is contacted; otherwise the handshake goes to the owner's gateway first; the client socket is closed exactly when the lookup failed or the handshake error is not already-setup; closing spawns nothing; at most two effects, touching only the client socket and the hijacked one; tcp spawns exactly one forwarder from the listen port to "Use open connect socket" under policy "forward", named `localSvc:destSvc`, with the client socket as its inbound socket and the hijacked handshake socket as its outbound one; mtls starts one mTLS forwarder with the client socket; an unsupported dataplane does nothing |
| ImportedService.ImportedTcpSplit | pkg/mbgDataplane/connect.go:244 | when the forward policy names a network function, the tcp hand-off's hijacked socket ends up on the egress leg's destination side in the intended plan, but on its source side in the plan as written, which breaks the sockets-at-the-ends property |
| ImportedService.TurnOf | pkg/mbgDataplane/connect.go:210-262 | one turn of the loop body: as written an accept error aborts the loop (panic), with the error checked first it leaves the loop with that error; an accepted connection continues after that connection's handling |
| ImportedService.Fold | pkg/mbgDataplane/connect.go:209-263 | running turns in order: still listening exactly when every turn continued; a returned error or a crash comes from a turn that left the loop |
| ImportedService.FoldAppend | pkg/mbgDataplane/connect.go:209-263 | running a + b is running a then b, unless a left the loop, in which case b changes nothing |
| ImportedService.TurnsAppend | pkg/mbgDataplane/connect.go:209-263 | the turns of a + b are the turns of a followed by those of b |
| ImportedService.FoldSameEffects | pkg/mbgDataplane/connect.go:209-263 | two turn sequences that continue at the same places with the same effects perform the same effects, and either both are still listening or neither is |
| ImportedService.Loop | pkg/mbgDataplane/connect.go:209-263 | the loop as written never returns an error: it is still listening exactly when every event was an accepted connection, and has panicked exactly when some event was an accept error |
| ImportedService.LoopIntended | pkg/mbgDataplane/connect.go:209-263 | with the error checked first the loop never panics; it is still listening exactly when every event was an accepted connection; a returned error is one of the accept errors |
| ImportedService.LoopMatchesIntended | pkg/mbgDataplane/connect.go:211-216 | the two loops perform the same effects; the loop as written panics exactly where the corrected one returns an accept error |
| ImportedService.Serve | pkg/mbgDataplane/connect.go:193-263 | a listen error is returned at once with no effects; otherwise it performs exactly the effects of the loop as written, still listening exactly when every event was an accepted connection and panicked otherwise |
| ImportedService.LoopUnfold | pkg/mbgDataplane/connect.go:210-226 | one turn of the loop as written: an accept error panics with no effect, an accepted connection's handling is followed by the rest of the loop |
| ImportedService.LoopAppend | pkg/mbgDataplane/connect.go:209-263 | the loop is a fold: on a + b it is the run on a followed by the run on b, unless it stopped within a, in which case b changes nothing |
| ImportedService.LoopClosesOnlyAccepted | pkg/mbgDataplane/connect.go:221-256 | every socket the loop closes is one it accepted |
| ImportedService.PerConnectionIsolation | pkg/mbgDataplane/connect.go:221-226 | a connection's handling, failed or not, sits between the effects of earlier and later connections, which it leaves unchanged: the loop closes that socket and carries on |
| ImportedService.AcceptErrorPanics | pkg/mbgDataplane/connect.go:211-216 | as written, the first accept error panics the loop after the effects of the connections accepted before it, and no later event is handled |
| ImportedService.AcceptErrorEndsIntendedLoop | pkg/mbgDataplane/connect.go:211-216 | with the error checked first, the first accept error ends the loop with that error after the effects of the connections accepted before it |
| ServiceCatalog.AddLocalService | pkg/mbgControlplane/service.go:12-15 | registering stores the given address under the id, keeps every other id's address, and changes nothing else in the state |
| ServiceCatalog.GetLocalService | pkg/mbgControlplane/service.go:17-21 | a registered id reads back as its id and registered address; an unknown id as the empty record |
| ServiceCatalog.AddThenGetLocal | pkg/mbgControlplane/service.go:12-21 | registering a service and reading its id back returns the registered {Id, Ip} unchanged |
| ServiceCatalog.AddLocalKeepsOthers | pkg/mbgControlplane/service.go:12-21 | registering one id leaves every other id's record unchanged |
| ServiceCatalog.RegisteredIsRoutedLocally | pkg/mbgControlplane/service.go:12-15 | after registration a connect to that id takes the local path and contacts no peer |
| ServiceCatalog.AdvertiseAll | pkg/mbgControlplane/service.go:27-31 | the loop visits the ids in any order and produces exactly those keys, each with its advertised record |
| ServiceCatalog.GetAllLocalServices | pkg/mbgControlplane/service.go:23-34 | the keys are exactly the local ids; each entry keeps its id, with address = this gateway's address + the external port recorded under that id |
| ServiceCatalog.AddRemoteService | pkg/mbgControlplane/service.go:37-58 | the remote record is written whatever follows; an admission error or Deny means no effect; a port error means no effect at all; otherwise the pair is allocated under the service id and exactly one listener starts on its local port, for that id, towards the owner's gateway, with this gateway's certificates |
| ServiceCatalog.GetRemoteService | pkg/mbgControlplane/service.go:60-66 | a known id reads back as its id at this gateway's address + its external port; an unknown id as the empty id with the port recorded under "" |
| ServiceCatalog.GetAllRemoteServices | pkg/mbgControlplane/service.go:68-79 | the keys are exactly the remote ids, and each entry agrees with GetRemoteService of that id |
| ServiceCatalog.ExposureIsRecorded | pkg/mbgControlplane/service.go:37-47 | after an exposure the id is in the remote catalog with its address and owner, even when admission failed or denied |
| ServiceCatalog.ExposureStartsAtMostOneListener | pkg/mbgControlplane/service.go:49-57 | an exposure performs at most two effects and starts at most one listener, for the exposed id, after the allocation |

## Left out

- Sockets, `net.Listen`/`Dial`/`Accept`, HTTP POST and CONNECT, and JSON: these are I/O. Replies arrive already decoded (`Handshake.PostOutcome`, `Handshake.HijackOutcome`). A marshal error cannot occur for a record of strings.
- The byte-copy internals of the TCP and mTLS forwarders. A forwarder appears only as a spawned goroutine with its addresses and sockets.
- `StartReceiverService` and `StartmTlsForwarder`: their dial and TLS work is I/O, so each is one effect.
- Goroutines and concurrency: a spawn is an effect, not a running goroutine.
- In the split branch of `ConnectService` (connect.go:131-132), the egress forwarder runs only after the ingress forwarder returns, in the same goroutine. The leg plan is an ordered pair of legs and does not capture that sequencing.
- The mTLS forwarder that the accept loop starts is called without `go`. The model does not capture that this blocks the loop.
- `ksuid` generation: the suffix is a parameter and is assumed fresh.
- Logging and `state.UpdateState` reload and persistence. Within one accept-loop run, the state is a fixed snapshot.
- Internals of the port tracker, the policy engine, the event manager, `GetMbgTarget`, `GetServiceMbgIp` and `LookupLocalService`: they are answers in `Collaborators.Env` or in the accept events.
- A successful port allocation appears as a `PortsAllocated` effect. The model does not write it into the state's connection map, because the tracker's storage is not part of this model.
- Connect.ConnectRemoteService: does not prove that an already-setup reply avoids a duplicate port pair. That depends on the port tracker, which is not part of this model.
- The CLI flag parsing of the gateway control tool, and the test orchestration script.
- In the accept loop, an unsupported dataplane leaves the accepted socket open. This is modelled as written (no effect).

## Findings

| source | as written | input that shows it | evidently intended | confidence | as-written member | corrected member |
|---|---|---|---|---|---|---|
| pkg/mbgDataplane/connect.go:78 | a handshake error is tolerated only if its text is "connection already setup" | peer replies with message "Connection already setup!", which `ConnectPostReq` turns into an error with exactly that text | tolerate the already-setup reply, as the listener loop does at lines 236 and 252 | high, not executed | `Connect.ConnectRemoteServiceAsWritten` (shown by `Connect.AlreadySetupTreatment`) | `Connect.ConnectRemoteService` (used by `Connect.ConnectIntended`) |
| pkg/mbgDataplane/connect.go:128-130 | in the split branch the outbound socket is attached with `egress.SetServerConnection` | non-empty policy target and a non-nil `clientConn` (the tcp branch of the listener loop passes the hijacked socket) | `egress.SetClientConnection`, matching the direct branch at line 116 | medium, not executed | `Forwarding.ConnectServiceAsWritten` (shown by `Forwarding.SplitMisplacesClientConn` and, for the listener loop's hand-off, `ImportedService.ImportedTcpSplit`) | `Forwarding.ConnectService` |
| pkg/mbgDataplane/connect.go:211-216 | the accepted connection's remote address is read before the accept error is checked | `Accept` fails, so the connection is nil and reading its address panics | check the error first and return it | high, not executed | `ImportedService.AcceptStepAsWritten` (shown by `ImportedService.AcceptErrorCrashesAsWritten`) | `ImportedService.AcceptStep` (used by `ImportedService.LoopIntended`) |

=== FILE: collaborators.dfy ===
/** The collaborators the connect logic consults, as the answers they give. The
    admission hook, the port tracker, the policy engine and the gateway directory
    are not part of this model; only their results are. */
module Collaborators {
  import opened Wrappers
  import opened Protocol
  import opened Gateway
  import opened Handshake

  datatype Action = Allow | Deny

  /** An admission decision, or the error raising the event produced. */
  datatype Admission = Decided(action: Action) | AdmissionFailed(err: string)

  datatype Direction = Incoming | Outgoing
  datatype ConnectionAttr = ConnectionAttr(src: string, dst: string, direction: Direction, otherMbg: string)
  datatype RemoteServiceAttr = RemoteServiceAttr(service: string, mbg: string)

  /** A port allocation: the pair returned and the error, as Go returns both. */
  datatype PortsResult = PortsResult(ports: Ports, err: Option<string>)

  /** Only a decided, non-Deny answer lets setup go on; an error stops it like Deny. */
  predicate Admits(a: Admission)
  {
    a.Decided? && a.action != Deny
  }

  /** Collaborator answers, each a function of the question asked. */
  datatype Env = Env(
    admitConnection: ConnectionAttr -> Admission,
    admitRemoteService: RemoteServiceAttr -> Admission,
    freePorts: string -> PortsResult,
    policyTarget: string -> string,
    mbgTarget: string -> string,
    serviceMbgIp: string -> string,
    post: (string, ConnectRequest) -> PostOutcome)
}

=== FILE: connect.dfy ===
/** The connection router and its two setup paths: a peer asking for a service
    hosted here (local destination), and a consumer here asking for a service
    imported from a peer (remote destination). */
module Connect {
  import opened Wrappers
  import opened Protocol
  import opened Gateway
  import opened Collaborators
  import opened Handshake
  import opened Effects
  import opened Forwarding

  /** The `(status, dataplaneType, target)` triple a setup returns. */
  datatype SetupResult = SetupResult(status: string, dataplaneType: string, target: string)

  /** A setup's result and the effects it performed, in order. */
  datatype Step = Step(result: SetupResult, effects: seq<Effect>)

  const LocalFailure := SetupResult("failure", "", "")
  const RemoteFailureStatus: string := "Failure"

  /** The text the remote path compares a handshake error with. */
  const ComparedAlreadySetupText: string := "connection already setup"

  /** The admission question for a peer's incoming request. */
  function IncomingAttr(c: ConnectRequest): ConnectionAttr
  {
    ConnectionAttr(c.id, c.idDest, Incoming, c.mbgId)
  }

  /** The remote path always starts by contacting the peer; the local path never does. */
  predicate ContactsPeer(effects: seq<Effect>)
  {
    |effects| > 0 && effects[0].HandshakeSent?
  }

  /** Local-destination setup: admission first, then a switch on the dataplane. */
  function ConnectLocalService(st: State, c: ConnectRequest, targetMbgIp: string, conn: Option<Socket>,
                               env: Env, uid: string): (s: Step)
    ensures s.result != LocalFailure <==>
      Admits(env.admitConnection(IncomingAttr(c))) && SupportedDataplane(st.dataplane)
    ensures s.result == LocalFailure <==> s.effects == []
    ensures s.result != LocalFailure ==>
      && s.result.status == SuccessMessage
      && s.result.dataplaneType == st.dataplane
      && |s.effects| == 1
    ensures s.result != LocalFailure && st.dataplane == TcpType ==>
      && s.result.target == ConnectModeTarget
      && s.effects[0] == ForwardingSpawned(ConnectModeTarget, LocalService(st, c.idDest).ip, c.policy,
                                           ConnectionId(c.id, c.idDest), conn, None)
    ensures s.result != LocalFailure && st.dataplane == MtlsType ==>
      && s.result.target == RemoteEndpoint(ConnectionId(c.id, c.idDest), uid)
      && s.effects[0] == ReceiverStarted(LocalService(st, c.idDest).ip, env.mbgTarget(c.mbgId), s.result.target)
    ensures !ContactsPeer(s.effects) && AllocatesNothing(s.effects)
  {
    var connectionId := ConnectionId(c.id, c.idDest);
    var localSvc := LocalService(st, c.idDest);
    var mbgTarget := env.mbgTarget(c.mbgId);
    var policyResp := env.admitConnection(IncomingAttr(c));
    if policyResp.AdmissionFailed? then Step(LocalFailure, [])
    else if policyResp.action == Deny then Step(LocalFailure, [])
    else if st.dataplane == TcpType then
      Step(SetupResult(SuccessMessage, st.dataplane, ConnectModeTarget),
           [ForwardingSpawned(ConnectModeTarget, localSvc.ip, c.policy, connectionId, conn, None)])
    else if st.dataplane == MtlsType then
      var remoteEndPoint := RemoteEndpoint(connectionId, uid);
      Step(SetupResult(SuccessMessage, st.dataplane, remoteEndPoint),
           [ReceiverStarted(localSvc.ip, mbgTarget, remoteEndPoint)])
    else Step(LocalFailure, [])
  }

  /** The handshake the remote path sends: to the peer owning the destination. */
  function RemoteHandshake(st: State, c: ConnectRequest, env: Env): Effect
  {
    var destSvc := RemoteService(st, c.idDest);
    HandshakeSent(HandshakeUrl(st, env.serviceMbgIp(destSvc.ip)), HandshakeRequest(st, c.id, c.idDest, c.policy))
  }

  function RemoteReply(st: State, c: ConnectRequest, env: Env): PostResult
  {
    var hs := RemoteHandshake(st, c, env);
    ConnectPostReq(env.post(hs.url, hs.request))
  }

  /** Remote-destination setup, tolerating a handshake error whose text equals
      `toleratedText`: handshake, then port allocation, then one forwarder. */
  function RemoteSetup(st: State, c: ConnectRequest, env: Env, toleratedText: string): (s: Step)
    ensures ContactsPeer(s.effects) && s.effects[0] == RemoteHandshake(st, c, env)
    ensures s.result.dataplaneType == TcpType
    ensures !Tolerated(RemoteReply(st, c, env).err, toleratedText) ==>
      s == Step(SetupResult(RemoteFailureStatus, TcpType, RemoteReply(st, c, env).connectDest), [s.effects[0]])
    ensures Tolerated(RemoteReply(st, c, env).err, toleratedText) && env.freePorts(ConnectionId(c.id, c.idDest)).err.Some? ==>
      var p := env.freePorts(ConnectionId(c.id, c.idDest));
      s == Step(SetupResult(p.err.value, TcpType, p.ports.external), [s.effects[0]])
    ensures SpawnsNothing(s.effects) <==>
      !Tolerated(RemoteReply(st, c, env).err, toleratedText) || env.freePorts(ConnectionId(c.id, c.idDest)).err.Some?
    ensures !SpawnsNothing(s.effects) ==>
      var key := ConnectionId(c.id, c.idDest);
      var p := env.freePorts(key).ports;
      && s.result == SetupResult(SuccessMessage, TcpType, p.external)
      && s.effects[1] == PortsAllocated(key, p)
      && s.effects[2] == ForwardingSpawned(p.local, RemoteService(st, c.idDest).ip + ":" + RemoteReply(st, c, env).connectDest,
                                           c.policy, key, None, None)
      && |s.effects| == 3
  {
    var connectionId := ConnectionId(c.id, c.idDest);
    var destSvc := RemoteService(st, c.idDest);
    var sent := RemoteHandshake(st, c, env);
    var reply := RemoteReply(st, c, env);
    if reply.err.Some? && ErrorText(reply.err.value) != toleratedText then
      Step(SetupResult(RemoteFailureStatus, TcpType, reply.connectDest), [sent])
    else
      var myConnectionPorts := env.freePorts(connectionId);
      if myConnectionPorts.err.Some? then
        Step(SetupResult(myConnectionPorts.err.value, TcpType, myConnectionPorts.ports.external), [sent])
      else
        var destIp := destSvc.ip + ":" + reply.connectDest;
        var spawned := ForwardingSpawned(myConnectionPorts.ports.local, destIp, c.policy, connectionId, None, None);
        var step := Step(SetupResult(SuccessMessage, TcpType, myConnectionPorts.ports.external),
                         [sent, PortsAllocated(connectionId, myConnectionPorts.ports), spawned]);
        assert Spawns(step.effects[2]);
        step
  }

  /** Remote setup as written: the error text is compared with a string the handshake
      never produces, so an already-setup reply is reported as a failure. */
  function ConnectRemoteServiceAsWritten(st: State, c: ConnectRequest, env: Env): (s: Step)
    ensures RemoteReply(st, c, env).err == Some(AlreadySetup) ==>
      s.result.status == RemoteFailureStatus && AllocatesNothing(s.effects) && SpawnsNothing(s.effects)
  {
    RemoteSetup(st, c, env, ComparedAlreadySetupText)
  }

  /** Remote setup tolerating the already-setup reply, as the listener loop does. */
  function ConnectRemoteService(st: State, c: ConnectRequest, env: Env): (s: Step)
    ensures RemoteReply(st, c, env).err == Some(AlreadySetup) && env.freePorts(ConnectionId(c.id, c.idDest)).err.None? ==>
      s.result.status == SuccessMessage && !SpawnsNothing(s.effects)
  {
    RemoteSetup(st, c, env, AlreadySetupMessage)
  }

  /** The router as written: the locality of the destination, and nothing else, picks
      the path, and a remote destination goes through the as-written remote setup. */
  function Connect(st: State, c: ConnectRequest, targetMbgIp: string, conn: Option<Socket>,
                   env: Env, uid: string): (s: Step)
    ensures IsServiceLocal(st, c.idDest) <==> !ContactsPeer(s.effects)
    ensures IsServiceLocal(st, c.idDest) ==> s.result.status == SuccessMessage || s.result == LocalFailure
    ensures !IsServiceLocal(st, c.idDest) ==> s.result.dataplaneType == TcpType
    ensures IsServiceLocal(st, c.idDest) ==>
      (s.result.status == SuccessMessage <==> Admits(env.admitConnection(IncomingAttr(c))) && SupportedDataplane(st.dataplane))
    ensures !IsServiceLocal(st, c.idDest) && RemoteReply(st, c, env).err.None?
            && env.freePorts(ConnectionId(c.id, c.idDest)).err.None? ==>
      && s.result == SetupResult(SuccessMessage, TcpType, env.freePorts(ConnectionId(c.id, c.idDest)).ports.external)
      && !SpawnsNothing(s.effects)
    ensures !IsServiceLocal(st, c.idDest) && RemoteReply(st, c, env).err == Some(AlreadySetup) ==>
      s.result.status == RemoteFailureStatus && AllocatesNothing(s.effects) && SpawnsNothing(s.effects)
  {
    if IsServiceLocal(st, c.idDest) then ConnectLocalService(st, c, targetMbgIp, conn, env, uid)
    else ConnectRemoteServiceAsWritten(st, c, env)
  }

  /** The router with the corrected remote setup: an already-setup reply from the
      peer is tolerated and the connection proceeds to port allocation. */
  function ConnectIntended(st: State, c: ConnectRequest, targetMbgIp: string, conn: Option<Socket>,
                           env: Env, uid: string): (s: Step)
    ensures IsServiceLocal(st, c.idDest) <==> !ContactsPeer(s.effects)
    ensures !IsServiceLocal(st, c.idDest) && RemoteReply(st, c, env).err == Some(AlreadySetup)
            && env.freePorts(ConnectionId(c.id, c.idDest)).err.None? ==>
      s.result.status == SuccessMessage && !SpawnsNothing(s.effects)
  {
    if IsServiceLocal(st, c.idDest) then ConnectLocalService(st, c, targetMbgIp, conn, env, uid)
    else ConnectRemoteService(st, c, env)
  }

  /** The two routers agree on every request whose handshake error, if any, is
      treated alike by both compared texts; on an already-setup reply with free ports
      the router as written fails where the corrected one succeeds. */
  lemma RouterCorrectionScope(st: State, c: ConnectRequest, targetMbgIp: string, conn: Option<Socket>,
                              env: Env, uid: string)
    ensures var err := RemoteReply(st, c, env).err;
      IsServiceLocal(st, c.idDest) || Tolerated(err, AlreadySetupMessage) == Tolerated(err, ComparedAlreadySetupText) ==>
      Connect(st, c, targetMbgIp, conn, env, uid) == ConnectIntended(st, c, targetMbgIp, conn, env, uid)
    ensures !IsServiceLocal(st, c.idDest) && RemoteReply(st, c, env).err == Some(AlreadySetup)
            && env.freePorts(ConnectionId(c.id, c.idDest)).err.None? ==>
      && Connect(st, c, targetMbgIp, conn, env, uid).result.status == RemoteFailureStatus
      && ConnectIntended(st, c, targetMbgIp, conn, env, uid).result.status == SuccessMessage
  {
  }

  // ---------------------------------------------------------------------------
  // Properties of the router

  /** Two calls with the same local catalog and destination take the same path,
      whatever the source, policy, collaborators or rest of the state. */
  lemma SameCatalogSameBranch(st1: State, st2: State, c1: ConnectRequest, c2: ConnectRequest,
                              ip1: string, ip2: string, conn1: Option<Socket>, conn2: Option<Socket>,
                              env1: Env, env2: Env, uid1: string, uid2: string)
    requires st1.localServices.Keys == st2.localServices.Keys
    requires c1.idDest == c2.idDest
    ensures ContactsPeer(Connect(st1, c1, ip1, conn1, env1, uid1).effects)
      == ContactsPeer(Connect(st2, c2, ip2, conn2, env2, uid2).effects)
  {
  }

  /** A refused or failed admission of a local destination spawns nothing. */
  lemma DenyMeansNothingSpawned(st: State, c: ConnectRequest, targetMbgIp: string, conn: Option<Socket>,
                                env: Env, uid: string)
    requires IsServiceLocal(st, c.idDest)
    requires !Admits(env.admitConnection(IncomingAttr(c)))
    ensures Connect(st, c, targetMbgIp, conn, env, uid) == Step(LocalFailure, [])
  {
  }

  /** A tcp local setup hands the peer's hijacked socket to a path ending at the
      local service, through the network function when the policy names one. */
  lemma LocalTcpPlan(st: State, c: ConnectRequest, targetMbgIp: string, k: Socket, env: Env, uid: string)
    requires IsServiceLocal(st, c.idDest)
    requires Admits(env.admitConnection(IncomingAttr(c)))
    requires st.dataplane == TcpType
    ensures var s := Connect(st, c, targetMbgIp, Some(k), env, uid);
      && s.result == SetupResult(SuccessMessage, TcpType, ConnectModeTarget)
      && |s.effects| == 1 && s.effects[0].ForwardingSpawned?
      && var legs := ConnectServiceAsWritten(s.effects[0].listen, s.effects[0].dest, env.policyTarget(s.effects[0].policy),
                                    s.effects[0].name, s.effects[0].server, s.effects[0].client);
         && Chained(legs, ConnectModeTarget, st.localServices[c.idDest])
         && legs[0].server == Some(k)
         && (env.policyTarget(c.policy) != "" ==> |legs| == 2 && legs[0].dst == env.policyTarget(c.policy))
  {
  }

  /** An mTLS local setup replies with a fresh endpoint under the connection key:
      two setups of the same pair with different suffixes never share a target. */
  lemma MtlsTargetsFresh(st: State, c: ConnectRequest, targetMbgIp: string, conn: Option<Socket>,
                         env: Env, uid1: string, uid2: string)
    requires IsServiceLocal(st, c.idDest)
    requires Admits(env.admitConnection(IncomingAttr(c)))
    requires st.dataplane == MtlsType
    ensures var t1 := Connect(st, c, targetMbgIp, conn, env, uid1).result;
      var t2 := Connect(st, c, targetMbgIp, conn, env, uid2).result;
      && t1.status == SuccessMessage && t1.dataplaneType == MtlsType
      && t1.target[..|ConnectionId(c.id, c.idDest)| + 1] == ConnectionId(c.id, c.idDest) + "-"
      && (t1.target == t2.target <==> uid1 == uid2)
  {
    RemoteEndpointRoundTrip(ConnectionId(c.id, c.idDest), uid1);
    RemoteEndpointFresh(ConnectionId(c.id, c.idDest), uid1, uid2);
  }

  /** An already-setup reply is fatal as written but proceeds to allocation once the
      compared text is the one the handshake produces. */
  lemma AlreadySetupTreatment(st: State, c: ConnectRequest, env: Env)
    requires RemoteReply(st, c, env).err == Some(AlreadySetup)
    requires env.freePorts(ConnectionId(c.id, c.idDest)).err.None?
    ensures ConnectRemoteServiceAsWritten(st, c, env).result.status == RemoteFailureStatus
    ensures var s := ConnectRemoteService(st, c, env);
      s.result.status == SuccessMessage && s.effects[2].ForwardingSpawned?
  {
  }

  /** The wire reply a peer's control plane sends for a setup triple. */
  function ReplyOf(r: SetupResult): ConnectReply
  {
    ConnectReply(r.status, r.dataplaneType, r.target)
  }

  /** Handshake agreement: the requester's classification of the peer's local setup
      succeeds with the peer's dataplane and target exactly when the peer succeeded,
      and is the generic failure otherwise. */
  lemma PeerSetupAgreement(peer: State, c: ConnectRequest, targetMbgIp: string, conn: Option<Socket>,
                           env: Env, uid: string)
    ensures var s := ConnectLocalService(peer, c, targetMbgIp, conn, env, uid);
      var r := ConnectPostReq(Replied(ReplyOf(s.result)));
      && (r.err.None? <==> s.result.status == SuccessMessage)
      && (r.err.None? ==> r.connectType == peer.dataplane && r.connectDest == s.result.target)
      && (r.err.Some? ==> r.err == Some(RequestFailed) && s.effects == [])
  {
  }
}

=== FILE: effects.dfy ===
/** The side effects a setup operation performs, recorded in order instead of run. */
module Effects {
  import opened Wrappers
  import opened Protocol
  import opened Gateway

  /** A local listener standing in for an imported service. */
  datatype Listener = Listener(serviceId: string, port: string, mbgTarget: string, certs: Certs)

  datatype Effect =
    | HandshakeSent(url: string, request: ConnectRequest)
    | PortsAllocated(key: string, ports: Ports)
      /** A forwarding goroutine from `listen` to `dest`, holding the given sockets. */
    | ForwardingSpawned(listen: string, dest: string, policy: string, name: string,
                        server: Option<Socket>, client: Option<Socket>)
    | ReceiverStarted(service: string, mbgTarget: string, endpoint: string)
    | MtlsForwarderStarted(mbgTarget: string, endpoint: string, certs: Certs, conn: Socket, isClient: bool)
    | ListenerStarted(listener: Listener)
    | SocketClosed(conn: Socket)

  /** Effects that start a goroutine carrying traffic. */
  predicate Spawns(e: Effect)
  {
    e.ForwardingSpawned? || e.ReceiverStarted? || e.MtlsForwarderStarted? || e.ListenerStarted?
  }

  predicate SpawnsNothing(effects: seq<Effect>)
  {
    forall i :: 0 <= i < |effects| ==> !Spawns(effects[i])
  }

  predicate AllocatesNothing(effects: seq<Effect>)
  {
    forall i :: 0 <= i < |effects| ==> !effects[i].PortsAllocated?
  }

  /** The sockets an effect touches. */
  function SocketsOf(e: Effect): set<Socket>
  {
    match e
    case ForwardingSpawned(_, _, _, _, server, client) => Elements(server) + Elements(client)
    case MtlsForwarderStarted(_, _, _, conn, _) => {conn}
    case SocketClosed(conn) => {conn}
    case _ => {}
  }
}

=== FILE: forwarding.dfy ===
/** The forwarding plan of one logical connection: a single leg, or an ingress and
    an egress leg joined at the policy-selected network function. */
module Forwarding {
  import opened Wrappers
  import opened Gateway

  /** One forwarder: relays `src` to `dst`, with pre-opened sockets attached to its
      server (source) side and client (destination) side. */
  datatype Forwarder = Forwarder(src: string, dst: string, name: string,
                                 server: Option<Socket>, client: Option<Socket>)

  /** The legs form one path from `from` to `to`, each starting where the last ended. */
  predicate Chained(legs: seq<Forwarder>, from: string, to: string)
  {
    && |legs| > 0
    && legs[0].src == from
    && legs[|legs| - 1].dst == to
    && forall i :: 0 <= i < |legs| - 1 ==> legs[i].dst == legs[i + 1].src
  }

  /** The inbound socket is on the source side of the first leg, the outbound socket
      on the destination side of the last leg, and no other side holds one. */
  predicate SocketsAtEnds(legs: seq<Forwarder>, serverConn: Option<Socket>, clientConn: Option<Socket>)
  {
    && |legs| > 0
    && legs[0].server == serverConn
    && legs[|legs| - 1].client == clientConn
    && (forall i :: 0 < i < |legs| ==> legs[i].server.None?)
    && (forall i :: 0 <= i < |legs| - 1 ==> legs[i].client.None?)
  }

  /** The leg plan with both sockets on their own side (the direct branch's rule). */
  function ConnectService(listen: string, svcIp: string, policyTarget: string, name: string,
                          serverConn: Option<Socket>, clientConn: Option<Socket>): (legs: seq<Forwarder>)
    ensures |legs| == (if policyTarget == "" then 1 else 2)
    ensures Chained(legs, listen, svcIp)
    ensures |legs| == 2 ==> legs[0].dst == policyTarget
    ensures SocketsAtEnds(legs, serverConn, clientConn)
    ensures forall i :: 0 <= i < |legs| ==> legs[i].name == name
  {
    if policyTarget == "" then
      [Forwarder(listen, svcIp, name, serverConn, clientConn)]
    else
      [Forwarder(listen, policyTarget, name, serverConn, None),
       Forwarder(policyTarget, svcIp, name, None, clientConn)]
  }

  /** The leg plan as the split branch builds it: the outbound socket is attached to
      the egress leg with SetServerConnection, i.e. on its source side. */
  function ConnectServiceAsWritten(listen: string, svcIp: string, policyTarget: string, name: string,
                                   serverConn: Option<Socket>, clientConn: Option<Socket>): (legs: seq<Forwarder>)
    ensures |legs| == (if policyTarget == "" then 1 else 2)
    ensures Chained(legs, listen, svcIp)
    ensures legs[0].server == serverConn
    ensures |legs| == 1 ==> legs[0].client == clientConn
    ensures |legs| == 2 ==> legs[0].dst == policyTarget && legs[0].client.None?
    ensures |legs| == 2 ==> legs[1].server == clientConn && legs[1].client.None?
    ensures forall i :: 0 <= i < |legs| ==> legs[i].name == name
  {
    if policyTarget == "" then
      [Forwarder(listen, svcIp, name, serverConn, clientConn)]
    else
      [Forwarder(listen, policyTarget, name, serverConn, None),
       Forwarder(policyTarget, svcIp, name, clientConn, None)]
  }

  /** The two plans differ only when a network function is inserted and an outbound
      socket is supplied: then the as-written plan leaves the destination side of the
      path without the socket. */
  lemma SplitMisplacesClientConn(listen: string, svcIp: string, policyTarget: string, name: string,
                                 serverConn: Option<Socket>, clientConn: Option<Socket>)
    ensures policyTarget == "" ==>
      ConnectServiceAsWritten(listen, svcIp, policyTarget, name, serverConn, clientConn)
      == ConnectService(listen, svcIp, policyTarget, name, serverConn, clientConn)
    ensures policyTarget != "" && clientConn.Some? ==>
      !SocketsAtEnds(ConnectServiceAsWritten(listen, svcIp, policyTarget, name, serverConn, clientConn),
                     serverConn, clientConn)
  {
  }

  /** Inserting a network function never changes where the path starts and ends, and
      the two legs meet exactly at the function. */
  lemma SplitKeepsEndpoints(listen: string, svcIp: string, policyTarget: string, name: string,
                            serverConn: Option<Socket>, clientConn: Option<Socket>)
    requires policyTarget != ""
    ensures var direct := ConnectService(listen, svcIp, "", name, serverConn, clientConn);
      var split := ConnectService(listen, svcIp, policyTarget, name, serverConn, clientConn);
      && split[0].src == direct[0].src
      && split[1].dst == direct[0].dst
      && split[0].dst == split[1].src == policyTarget
      && split[0].server == direct[0].server
      && split[1].client == direct[0].client
  {
  }
}

=== FILE: gateway.dfy ===
/** The gateway's shared state as the connect logic reads it: identity, configured
    dataplane, the service catalog and the connection-port table. */
module Gateway {
  import opened Protocol

  /** An open network connection, known only by identity. */
  datatype Socket = Socket(handle: nat)

  /** A local/external port pair allocated for one connection key. */
  datatype Ports = Ports(local: string, external: string)

  datatype Service = Service(id: string, ip: string)
  datatype RemoteEntry = RemoteEntry(ip: string, mbgId: string)
  datatype Certs = Certs(rootCA: string, certificate: string, key: string)

  /** Local services map id to address; imported services map id to address and
      owning peer gateway; connections map a connection key to its ports. */
  datatype State = State(
    myId: string,
    myIp: string,
    dataplane: string,
    addrStart: string,
    certs: Certs,
    localServices: map<string, string>,
    remoteServices: map<string, RemoteEntry>,
    connections: map<string, Ports>)

  /** The catalog locality test. */
  predicate IsServiceLocal(st: State, id: string)
  {
    id in st.localServices
  }

  /** The dataplanes the gateway knows how to set up. */
  predicate SupportedDataplane(dataplane: string)
  {
    dataplane == TcpType || dataplane == MtlsType
  }

  /** The record a lookup of an unknown id yields (Go's zero value). */
  const NoService := Service("", "")
  const NoPorts := Ports("", "")

  function LocalService(st: State, id: string): Service
  {
    if id in st.localServices then Service(id, st.localServices[id]) else NoService
  }

  function RemoteService(st: State, id: string): Service
  {
    if id in st.remoteServices then Service(id, st.remoteServices[id].ip) else NoService
  }

  /** The port pair recorded under a key; the zero pair when there is none. */
  function ConnectionPorts(st: State, key: string): Ports
  {
    if key in st.connections then st.connections[key] else NoPorts
  }

  /** Where a peer's connect handshake is posted. */
  function HandshakeUrl(st: State, mbgIp: string): string
  {
    st.addrStart + mbgIp + "/connect"
  }

  /** The request this gateway sends to a peer on behalf of `src` reaching `dst`. */
  function HandshakeRequest(st: State, src: string, dst: string, policy: string): ConnectRequest
  {
    ConnectRequest(src, dst, policy, st.myId)
  }
}

=== FILE: handshake.dfy ===
/** Classification of a peer's reply to a connect handshake, for both the JSON
    request/reply variant and the connection-hijack variant. */
module Handshake {
  import opened Wrappers
  import opened Protocol
  import opened Gateway

  /** What the JSON round trip delivered: a decoded reply, or a decode error. */
  datatype PostOutcome = Replied(reply: ConnectReply) | Undecodable(err: string)

  /** What the hijacking round trip delivered: a socket (possibly none) and an error text. */
  datatype HijackOutcome = HijackOutcome(conn: Option<Socket>, err: Option<string>)

  /** The errors a handshake reports, each with the text its Go error carries. */
  datatype HandshakeError = AlreadySetup | RequestFailed | DecodeFailed(text: string)

  function ErrorText(e: HandshakeError): string
  {
    match e
    case AlreadySetup => AlreadySetupMessage
    case RequestFailed => ConnectFailedMessage
    case DecodeFailed(t) => t
  }

  datatype PostResult = PostResult(connectType: string, connectDest: string, err: Option<HandshakeError>)
  datatype HijackResult = HijackResult(conn: Option<Socket>, err: Option<HandshakeError>)

  /** The reply of a decoded JSON handshake, classified by its message. */
  function ConnectPostReq(outcome: PostOutcome): (r: PostResult)
    ensures r.err.None? <==> outcome.Replied? && outcome.reply.message == SuccessMessage
    ensures r.err == Some(AlreadySetup) <==> outcome.Replied? && outcome.reply.message == AlreadySetupMessage
    ensures r.err == Some(RequestFailed) <==>
      outcome.Replied? && outcome.reply.message != SuccessMessage && outcome.reply.message != AlreadySetupMessage
    ensures outcome.Undecodable? ==> r.err == Some(DecodeFailed(outcome.err))
    ensures r.err.None? || r.err == Some(AlreadySetup) ==>
      r.connectType == outcome.reply.connectType && r.connectDest == outcome.reply.connectDest
    ensures r.err.Some? && r.err != Some(AlreadySetup) ==> r.connectType == "" && r.connectDest == ""
  {
    match outcome
    case Undecodable(e) => PostResult("", "", Some(DecodeFailed(e)))
    case Replied(reply) =>
      if reply.message == SuccessMessage then PostResult(reply.connectType, reply.connectDest, None)
      else if AlreadySetupMessage == reply.message then
        PostResult(reply.connectType, reply.connectDest, Some(AlreadySetup))
      else PostResult("", "", Some(RequestFailed))
  }

  /** The hijacking variant: no error keeps the socket; an already-setup error keeps
      it too; any other error drops it. */
  function ConnectReq(outcome: HijackOutcome): (r: HijackResult)
    ensures r.err.None? <==> outcome.err.None?
    ensures r.err == Some(AlreadySetup) <==> outcome.err == Some(AlreadySetupMessage)
    ensures r.err.Some? && r.err != Some(AlreadySetup) ==> r.err == Some(RequestFailed) && r.conn.None?
    ensures r.conn.Some? ==> r.conn == outcome.conn
    ensures r.err.None? || r.err == Some(AlreadySetup) ==> r.conn == outcome.conn
  {
    if outcome.err.None? then HijackResult(outcome.conn, None)
    else if AlreadySetupMessage == outcome.err.value then HijackResult(outcome.conn, Some(AlreadySetup))
    else HijackResult(None, Some(RequestFailed))
  }

  /** An error a caller tolerates when it compares the error's text with `text`. */
  predicate Tolerated(err: Option<HandshakeError>, text: string)
  {
    err.None? || ErrorText(err.value) == text
  }

  /** Comparing with the exact already-setup message tolerates exactly success and
      the already-setup reply, for both variants. */
  lemma ToleratedByExactMessage(outcome: PostOutcome, hijack: HijackOutcome)
    requires outcome.Undecodable? ==> outcome.err != AlreadySetupMessage
    ensures Tolerated(ConnectPostReq(outcome).err, AlreadySetupMessage) <==>
      outcome.Replied? && (outcome.reply.message == SuccessMessage || outcome.reply.message == AlreadySetupMessage)
    ensures Tolerated(ConnectReq(hijack).err, AlreadySetupMessage) <==>
      hijack.err.None? || hijack.err == Some(AlreadySetupMessage)
  {
  }
}

=== FILE: imported_service.dfy ===
/** The local listener standing in for an imported service: each accepted local
    client is identified, the owning peer is asked to connect, and the client's
    socket is handed to a forwarder. The endless accept loop is modelled as a fold
    over the accept events seen so far. */
module ImportedService {
  import opened Wrappers
  import opened Protocol
  import opened Gateway
  import opened Collaborators
  import opened Handshake
  import opened Effects
  import opened Forwarding

  /** Policy name the listener asks the peer to apply. */
  const ForwardPolicy: string := "forward"

  /** Destination given to a tcp forwarder that reuses the hijacked socket. */
  const OpenSocketDest: string := "Use open connect socket"

  /** One return of Accept, with the answers the per-connection collaborators give:
      the local-service lookup of the client's address and the peer's reply. */
  datatype AcceptEvent =
    | AcceptFailed(err: string)
    | Accepted(conn: Socket, lookup: Result<Service>, reply: PostOutcome, hijack: HijackOutcome)

  datatype Exit = Listening | Returned(err: string) | Panicked

  /** The effects performed so far and how the loop stands. */
  datatype Run = Run(effects: seq<Effect>, exit: Exit)

  datatype AcceptStepResult = Proceed(conn: Socket) | Stop(err: string) | Crash

  /** The head of the loop body as written: the accepted connection's address is read
      before the error is checked, and on an accept error that connection is nil. */
  function AcceptStepAsWritten(ev: AcceptEvent): (r: AcceptStepResult)
    ensures r.Proceed? <==> ev.Accepted?
    ensures r.Proceed? ==> r.conn == ev.conn
    ensures ev.AcceptFailed? ==> r == Crash
  {
    match ev
    case AcceptFailed(_) => Crash
    case Accepted(conn, _, _, _) => Proceed(conn)
  }

  /** The head of the loop body with the error checked first: an accept error ends
      the loop and is returned to the caller. */
  function AcceptStep(ev: AcceptEvent): (r: AcceptStepResult)
    ensures r.Proceed? <==> ev.Accepted?
    ensures r.Proceed? ==> r.conn == ev.conn
    ensures ev.AcceptFailed? ==> r == Stop(ev.err)
    ensures !r.Crash?
  {
    match ev
    case AcceptFailed(err) => Stop(err)
    case Accepted(conn, _, _, _) => Proceed(conn)
  }

  /** The finding in one statement: on an accept error the loop as written crashes
      where it should return the error. */
  lemma AcceptErrorCrashesAsWritten(err: string)
    ensures AcceptStepAsWritten(AcceptFailed(err)) == Crash
    ensures AcceptStep(AcceptFailed(err)) == Stop(err)
  {
  }

  /** Whether the handling of one accepted connection gives up on it. */
  predicate Refused(st: State, lookup: Result<Service>, reply: PostOutcome, hijack: HijackOutcome)
  {
    || lookup.Err?
    || (st.dataplane == TcpType && !Tolerated(ConnectReq(hijack).err, AlreadySetupMessage))
    || (st.dataplane == MtlsType && !Tolerated(ConnectPostReq(reply).err, AlreadySetupMessage))
  }

  /** Handling of one accepted connection: identify the client, ask the peer, then
      either close the client's socket or hand it to a forwarder. */
  function HandleConnection(st: State, l: Listener, env: Env, conn: Socket, lookup: Result<Service>,
                            reply: PostOutcome, hijack: HijackOutcome): (effects: seq<Effect>)
    ensures |effects| <= 2
    ensures SocketClosed(conn) in effects <==> Refused(st, lookup, reply, hijack)
    ensures forall i :: 0 <= i < |effects| ==> SocketsOf(effects[i]) <= {conn} + Elements(hijack.conn)
    ensures forall i :: 0 <= i < |effects| && effects[i].SocketClosed? ==> effects[i].conn == conn
    ensures Refused(st, lookup, reply, hijack) ==> SpawnsNothing(effects)
    ensures !Refused(st, lookup, reply, hijack) && st.dataplane == TcpType ==>
      && |effects| == 2
      && effects[1] == ForwardingSpawned(l.port, OpenSocketDest, ForwardPolicy,
                                         ConnectionId(lookup.value.id, RemoteService(st, l.serviceId).id),
                                         Some(conn), ConnectReq(hijack).conn)
    ensures !Refused(st, lookup, reply, hijack) && st.dataplane == MtlsType ==>
      |effects| == 2 && effects[1] == MtlsForwarderStarted(l.mbgTarget, ConnectPostReq(reply).connectDest, l.certs, conn, true)
    ensures lookup.Err? ==> effects == [SocketClosed(conn)]
    ensures lookup.Ok? && SupportedDataplane(st.dataplane) ==>
      |effects| == 2 && effects[0] == HandshakeSent(HandshakeUrl(st, env.serviceMbgIp(RemoteService(st, l.serviceId).ip)),
                                  HandshakeRequest(st, lookup.value.id, l.serviceId, ForwardPolicy))
    ensures !SupportedDataplane(st.dataplane) && lookup.Ok? ==> effects == []
  {
    if lookup.Err? then [SocketClosed(conn)]
    else
      var localSvc := lookup.value;
      var destSvc := RemoteService(st, l.serviceId);
      var mbgIp := env.serviceMbgIp(destSvc.ip);
      var sent := HandshakeSent(HandshakeUrl(st, mbgIp), HandshakeRequest(st, localSvc.id, l.serviceId, ForwardPolicy));
      if st.dataplane == TcpType then
        var h := ConnectReq(hijack);
        if h.err.Some? && ErrorText(h.err.value) != AlreadySetupMessage then [sent, SocketClosed(conn)]
        else
          var connectionId := ConnectionId(localSvc.id, destSvc.id);
          [sent, ForwardingSpawned(l.port, OpenSocketDest, ForwardPolicy, connectionId, Some(conn), h.conn)]
      else if st.dataplane == MtlsType then
        var r := ConnectPostReq(reply);
        if r.err.Some? && ErrorText(r.err.value) != AlreadySetupMessage then [sent, SocketClosed(conn)]
        else [sent, MtlsForwarderStarted(l.mbgTarget, r.connectDest, l.certs, conn, true)]
      else []
  }

  /** The client sockets the listener has accepted among the events. */
  function AcceptedConns(events: seq<AcceptEvent>): set<Socket>
  {
    set i | 0 <= i < |events| && events[i].Accepted? :: events[i].conn
  }

  predicate AllAccepted(events: seq<AcceptEvent>)
  {
    forall i :: 0 <= i < |events| ==> events[i].Accepted?
  }

  /** A tcp hand-off passes the client socket as the inbound socket and the hijacked
      handshake socket as the outbound one. With a network function configured for the
      forward policy, the intended leg plan keeps the hijacked socket on the destination
      side of the egress leg, while the plan as written puts it on that leg's source side. */
  lemma ImportedTcpSplit(st: State, l: Listener, env: Env, conn: Socket, lookup: Result<Service>,
                         reply: PostOutcome, hijack: HijackOutcome)
    requires lookup.Ok? && st.dataplane == TcpType && !Refused(st, lookup, reply, hijack)
    requires ConnectReq(hijack).conn.Some?
    requires env.policyTarget(ForwardPolicy) != ""
    ensures var f := HandleConnection(st, l, env, conn, lookup, reply, hijack)[1];
      var intended := ConnectService(f.listen, f.dest, env.policyTarget(f.policy), f.name, f.server, f.client);
      var asWritten := ConnectServiceAsWritten(f.listen, f.dest, env.policyTarget(f.policy), f.name, f.server, f.client);
      && SocketsAtEnds(intended, Some(conn), hijack.conn)
      && intended[1].client == hijack.conn
      && asWritten[1].server == hijack.conn && asWritten[1].client.None?
      && !SocketsAtEnds(asWritten, Some(conn), hijack.conn)
  {
    var f := HandleConnection(st, l, env, conn, lookup, reply, hijack)[1];
    SplitMisplacesClientConn(f.listen, f.dest, env.policyTarget(f.policy), f.name, f.server, f.client);
  }

  /** How the loop body begins: as written (address read before the error check), or
      with the accept error checked first. */
  datatype Head = AsWritten | ErrorFirst

  function Begin(h: Head, ev: AcceptEvent): AcceptStepResult
  {
    match h
    case AsWritten => AcceptStepAsWritten(ev)
    case ErrorFirst => AcceptStep(ev)
  }

  /** What one turn of the loop does: carry on after some effects, or leave the loop. */
  datatype Turn = Continue(effects: seq<Effect>) | Quit(err: string) | Abort

  /** One turn of the loop body for one accept event. */
  function TurnOf(h: Head, st: State, l: Listener, env: Env, ev: AcceptEvent): (t: Turn)
    ensures ev.AcceptFailed? && h == AsWritten ==> t == Abort
    ensures ev.AcceptFailed? && h == ErrorFirst ==> t == Quit(ev.err)
    ensures ev.Accepted? ==> t == Continue(HandleConnection(st, l, env, ev.conn, ev.lookup, ev.reply, ev.hijack))
  {
    match Begin(h, ev)
    case Stop(err) => Quit(err)
    case Crash => Abort
    case Proceed(conn) => Continue(HandleConnection(st, l, env, conn, ev.lookup, ev.reply, ev.hijack))
  }

  /** Running turns in order until one leaves the loop. */
  function Fold(turns: seq<Turn>): (r: Run)
    ensures r.exit == Listening <==> forall i :: 0 <= i < |turns| ==> turns[i].Continue?
    ensures r.exit.Returned? ==> Quit(r.exit.err) in turns
    ensures r.exit.Panicked? ==> Abort in turns
    decreases |turns|
  {
    if |turns| == 0 then Run([], Listening)
    else
      match turns[0]
      case Quit(err) => Run([], Returned(err))
      case Abort => Run([], Panicked)
      case Continue(effects) =>
        var rest := Fold(turns[1..]);
        Run(effects + rest.effects, rest.exit)
  }

  /** Running on a + b is running on a, then on b, unless a left the loop. */
  lemma {:induction false} FoldAppend(a: seq<Turn>, b: seq<Turn>)
    ensures Fold(a).exit == Listening ==> Fold(a + b) == Run(Fold(a).effects + Fold(b).effects, Fold(b).exit)
    ensures Fold(a).exit != Listening ==> Fold(a + b) == Fold(a)
    decreases |a|
  {
    if |a| == 0 {
      assert a + b == b;
    } else {
      assert (a + b)[0] == a[0];
      assert (a + b)[1..] == a[1..] + b;
      if a[0].Continue? {
        FoldAppend(a[1..], b);
        assert a[0].effects + (Fold(a[1..]).effects + Fold(b).effects)
            == (a[0].effects + Fold(a[1..]).effects) + Fold(b).effects;
      }
    }
  }

  /** Two turn sequences that continue at the same places with the same effects
      perform the same effects, and either both are still listening or neither is. */
  lemma {:induction false} FoldSameEffects(a: seq<Turn>, b: seq<Turn>)
    requires |a| == |b|
    requires forall i :: 0 <= i < |a| ==> (a[i].Continue? <==> b[i].Continue?)
    requires forall i :: 0 <= i < |a| && a[i].Continue? ==> a[i].effects == b[i].effects
    ensures Fold(a).effects == Fold(b).effects
    ensures Fold(a).exit == Listening <==> Fold(b).exit == Listening
    decreases |a|
  {
    if |a| > 0 && a[0].Continue? {
      FoldSameEffects(a[1..], b[1..]);
    }
  }

  function Turns(h: Head, st: State, l: Listener, env: Env, events: seq<AcceptEvent>): (ts: seq<Turn>)
  {
    seq(|events|, i requires 0 <= i < |events| => TurnOf(h, st, l, env, events[i]))
  }

  lemma TurnsAppend(h: Head, st: State, l: Listener, env: Env, a: seq<AcceptEvent>, b: seq<AcceptEvent>)
    ensures Turns(h, st, l, env, a + b) == Turns(h, st, l, env, a) + Turns(h, st, l, env, b)
  {
  }

  /** The accept loop as written over the events seen so far: it never returns an
      accept error, because the first one panics. */
  function Loop(st: State, l: Listener, env: Env, events: seq<AcceptEvent>): (r: Run)
    ensures !r.exit.Returned?
    ensures r.exit == Listening <==> AllAccepted(events)
    ensures r.exit == Panicked <==> !AllAccepted(events)
  {
    var ts := Turns(AsWritten, st, l, env, events);
    var r := Fold(ts);
    assert !r.exit.Returned? && (r.exit == Listening <==> AllAccepted(events)) by {
      assert forall i :: 0 <= i < |events| ==> (ts[i].Continue? <==> events[i].Accepted?);
      assert forall i :: 0 <= i < |ts| ==> !ts[i].Quit?;
    }
    r
  }

  /** The accept loop with the accept error checked first: it never panics, and an
      accept error is returned to the caller. */
  function LoopIntended(st: State, l: Listener, env: Env, events: seq<AcceptEvent>): (r: Run)
    ensures r.exit != Panicked
    ensures r.exit == Listening <==> AllAccepted(events)
    ensures r.exit.Returned? ==> AcceptFailed(r.exit.err) in events
  {
    var ts := Turns(ErrorFirst, st, l, env, events);
    var r := Fold(ts);
    assert r.exit != Panicked && (r.exit == Listening <==> AllAccepted(events))
           && (r.exit.Returned? ==> AcceptFailed(r.exit.err) in events) by {
      assert forall i :: 0 <= i < |events| ==> (ts[i].Continue? <==> events[i].Accepted?);
      assert forall i :: 0 <= i < |ts| ==> !ts[i].Abort?;
      if r.exit.Returned? {
        var i :| 0 <= i < |ts| && ts[i] == Quit(r.exit.err);
        assert events[i].AcceptFailed?;
      }
    }
    r
  }

  /** The two loops perform the same effects and stop at the same event; where the
      intended loop returns an accept error, the loop as written panics. */
  lemma LoopMatchesIntended(st: State, l: Listener, env: Env, events: seq<AcceptEvent>)
    ensures Loop(st, l, env, events).effects == LoopIntended(st, l, env, events).effects
    ensures Loop(st, l, env, events).exit == Panicked <==> LoopIntended(st, l, env, events).exit.Returned?
  {
    FoldSameEffects(Turns(AsWritten, st, l, env, events), Turns(ErrorFirst, st, l, env, events));
  }

  /** StartLocalServer2RemoteService: listen, then run the accept loop as written. */
  function Serve(st: State, l: Listener, env: Env, listenErr: Option<string>, events: seq<AcceptEvent>): (r: Run)
    ensures listenErr.Some? ==> r == Run([], Returned(listenErr.value))
    ensures listenErr.None? ==>
      && r.effects == Loop(st, l, env, events).effects
      && (r.exit == Listening <==> AllAccepted(events))
      && (r.exit == Panicked <==> !AllAccepted(events))
  {
    if listenErr.Some? then Run([], Returned(listenErr.value))
    else Loop(st, l, env, events)
  }

  /** The loop is a fold: running on a + b is running on a, then on b, unless the
      loop stopped within a. */
  lemma LoopAppend(st: State, l: Listener, env: Env, a: seq<AcceptEvent>, b: seq<AcceptEvent>)
    ensures Loop(st, l, env, a).exit == Listening ==>
      Loop(st, l, env, a + b) == Run(Loop(st, l, env, a).effects + Loop(st, l, env, b).effects, Loop(st, l, env, b).exit)
    ensures Loop(st, l, env, a).exit != Listening ==> Loop(st, l, env, a + b) == Loop(st, l, env, a)
  {
    TurnsAppend(AsWritten, st, l, env, a, b);
    FoldAppend(Turns(AsWritten, st, l, env, a), Turns(AsWritten, st, l, env, b));
  }

  /** One turn of the loop: the first event, then the loop over the rest. */
  lemma LoopUnfold(st: State, l: Listener, env: Env, events: seq<AcceptEvent>)
    requires |events| > 0
    ensures events[0].AcceptFailed? ==> Loop(st, l, env, events) == Run([], Panicked)
    ensures events[0].Accepted? ==>
      Loop(st, l, env, events) ==
      Run(HandleConnection(st, l, env, events[0].conn, events[0].lookup, events[0].reply, events[0].hijack)
          + Loop(st, l, env, events[1..]).effects,
          Loop(st, l, env, events[1..]).exit)
  {
    assert events == [events[0]] + events[1..];
    LoopAppend(st, l, env, [events[0]], events[1..]);
    var ts := Turns(AsWritten, st, l, env, [events[0]]);
    assert ts == [TurnOf(AsWritten, st, l, env, events[0])];
    assert ts[1..] == [];
    if events[0].Accepted? {
      var h := HandleConnection(st, l, env, events[0].conn, events[0].lookup, events[0].reply, events[0].hijack);
      assert Fold(ts) == Run(h + Fold([]).effects, Listening);
      assert h + [] == h;
    }
  }

  /** The loop closes no socket but those it accepted. */
  lemma {:induction false} LoopClosesOnlyAccepted(st: State, l: Listener, env: Env, events: seq<AcceptEvent>)
    ensures var r := Loop(st, l, env, events);
      forall i :: 0 <= i < |r.effects| && r.effects[i].SocketClosed? ==> r.effects[i].conn in AcceptedConns(events)
    decreases |events|
  {
    if |events| > 0 {
      LoopUnfold(st, l, env, events);
      if events[0].Accepted? {
        LoopClosesOnlyAccepted(st, l, env, events[1..]);
        assert AcceptedConns(events[1..]) <= AcceptedConns(events) by {
          forall k | k in AcceptedConns(events[1..]) ensures k in AcceptedConns(events) {
            var j :| 0 <= j < |events[1..]| && events[1..][j].Accepted? && events[1..][j].conn == k;
            assert events[j + 1] == events[1..][j];
          }
        }
        assert events[0].conn in AcceptedConns(events);
      }
    }
  }

  /** One connection's failure is local to it: the effects of the loop are those of
      the earlier connections, then that connection's own handling, then those of
      the later ones, whatever that handling was. */
  lemma PerConnectionIsolation(st: State, l: Listener, env: Env, before: seq<AcceptEvent>,
                               ev: AcceptEvent, after: seq<AcceptEvent>)
    requires AllAccepted(before) && ev.Accepted?
    ensures Loop(st, l, env, before + [ev] + after).effects ==
      Loop(st, l, env, before).effects
      + HandleConnection(st, l, env, ev.conn, ev.lookup, ev.reply, ev.hijack)
      + Loop(st, l, env, after).effects
  {
    LoopAppend(st, l, env, before, [ev] + after);
    assert before + [ev] + after == before + ([ev] + after);
    LoopUnfold(st, l, env, [ev] + after);
    assert ([ev] + after)[0] == ev;
    assert ([ev] + after)[1..] == after;
  }

  /** As written, the first accept error panics the loop, after the effects of the
      connections accepted before it; nothing later is handled. */
  lemma AcceptErrorPanics(st: State, l: Listener, env: Env, before: seq<AcceptEvent>, err: string,
                          after: seq<AcceptEvent>)
    requires AllAccepted(before)
    ensures Loop(st, l, env, before + [AcceptFailed(err)] + after) ==
      Run(Loop(st, l, env, before).effects, Panicked)
  {
    LoopAppend(st, l, env, before, [AcceptFailed(err)] + after);
    assert before + [AcceptFailed(err)] + after == before + ([AcceptFailed(err)] + after);
    LoopUnfold(st, l, env, [AcceptFailed(err)] + after);
    assert ([AcceptFailed(err)] + after)[0] == AcceptFailed(err);
  }

  /** With the error checked first, the first accept error ends the loop with that
      error, after the effects of the connections accepted before it. */
  lemma AcceptErrorEndsIntendedLoop(st: State, l: Listener, env: Env, before: seq<AcceptEvent>, err: string,
                                    after: seq<AcceptEvent>)
    requires AllAccepted(before)
    ensures LoopIntended(st, l, env, before + [AcceptFailed(err)] + after) ==
      Run(LoopIntended(st, l, env, before).effects, Returned(err))
  {
    var rest := [AcceptFailed(err)] + after;
    assert before + [AcceptFailed(err)] + after == before + rest;
    TurnsAppend(ErrorFirst, st, l, env, before, rest);
    FoldAppend(Turns(ErrorFirst, st, l, env, before), Turns(ErrorFirst, st, l, env, rest));
    assert Turns(ErrorFirst, st, l, env, rest)[0] == Quit(err);
    assert Fold(Turns(ErrorFirst, st, l, env, rest)) == Run([], Returned(err));
    assert LoopIntended(st, l, env, before).effects + [] == LoopIntended(st, l, env, before).effects;
  }
}

=== FILE: protocol.dfy ===
/** Control-plane wire records, the literal strings the gateway exchanges, and the
    identifiers it builds for logical connections and mTLS endpoints. */
module Protocol {
  import opened Wrappers

  /** The two recognised dataplane technologies. */
  const TcpType: string := "tcp"
  const MtlsType: string := "mtls"

  /** Target of a local tcp setup: keep using the hijacked control socket for data. */
  const ConnectModeTarget: string := "use connect mode"

  /** Reply messages and error texts of the connect handshake. */
  const SuccessMessage: string := "Success"
  const AlreadySetupMessage: string := "Connection already setup!"
  const ConnectFailedMessage: string := "Connect Request Failed"

  datatype ConnectRequest = ConnectRequest(id: string, idDest: string, policy: string, mbgId: string)
  datatype ConnectReply = ConnectReply(message: string, connectType: string, connectDest: string)
  datatype ServiceRequest = ServiceRequest(id: string, ip: string)
  datatype ExposeRequest = ExposeRequest(id: string, ip: string, mbgId: string)

  /** Key of one logical connection, `src:dst`. */
  function ConnectionId(src: string, dst: string): string
  {
    src + ":" + dst
  }

  /** Index of the first ':' of s, or |s| when s has none. */
  function FirstColon(s: string): (i: nat)
    ensures i <= |s|
    ensures i < |s| ==> s[i] == ':'
    ensures forall k :: 0 <= k < i ==> s[k] != ':'
    decreases |s|
  {
    if |s| == 0 || s[0] == ':' then 0 else 1 + FirstColon(s[1..])
  }

  /** Reads a connection key back into its source and destination ids. */
  function SplitConnectionId(key: string): (r: Option<(string, string)>)
    ensures r.None? <==> ':' !in key
    ensures r.Some? ==> ':' !in r.value.0 && ConnectionId(r.value.0, r.value.1) == key
  {
    var i := FirstColon(key);
    if i == |key| then None
    else
      assert key == key[..i] + ":" + key[i + 1..];
      Some((key[..i], key[i + 1..]))
  }

  /** A connection key names its endpoints unambiguously when the source id has no ':'. */
  lemma {:induction false} ConnectionIdRoundTrip(src: string, dst: string)
    requires ':' !in src
    ensures SplitConnectionId(ConnectionId(src, dst)) == Some((src, dst))
  {
    var key := ConnectionId(src, dst);
    assert key[|src|] == ':';
    var i := FirstColon(key);
    assert i == |src|;
    assert key[..i] == src;
    assert key[i + 1..] == dst;
  }

  lemma ConnectionIdInjective(a: string, b: string, c: string, d: string)
    requires ':' !in a && ':' !in c
    requires ConnectionId(a, b) == ConnectionId(c, d)
    ensures a == c && b == d
  {
    ConnectionIdRoundTrip(a, b);
    ConnectionIdRoundTrip(c, d);
  }

  /** Without the colon-free restriction two different pairs share a key. */
  lemma ColonInSourceCollides()
    ensures ConnectionId("a:b", "c") == ConnectionId("a", "b:c")
  {
  }

  /** Name of a per-connection mTLS endpoint: the connection key, '-', a unique suffix. */
  function RemoteEndpoint(connectionId: string, uid: string): string
  {
    connectionId + "-" + uid
  }

  /** The suffix of an endpoint name, given the connection key it was built from. */
  function EndpointSuffix(endpoint: string, connectionId: string): (uid: string)
    requires |endpoint| > |connectionId|
  {
    endpoint[|connectionId| + 1..]
  }

  /** An endpoint name starts with its connection key and gives back its suffix. */
  lemma RemoteEndpointRoundTrip(connectionId: string, uid: string)
    ensures var ep := RemoteEndpoint(connectionId, uid);
      |ep| > |connectionId|
      && ep[..|connectionId| + 1] == connectionId + "-"
      && EndpointSuffix(ep, connectionId) == uid
  {
    var ep := RemoteEndpoint(connectionId, uid);
    assert ep[..|connectionId| + 1] == connectionId + "-";
    assert ep[|connectionId| + 1..] == uid;
  }

  /** Distinct suffixes give distinct endpoint names for the same connection. */
  lemma RemoteEndpointFresh(connectionId: string, uid1: string, uid2: string)
    ensures RemoteEndpoint(connectionId, uid1) == RemoteEndpoint(connectionId, uid2) <==> uid1 == uid2
  {
    RemoteEndpointRoundTrip(connectionId, uid1);
    RemoteEndpointRoundTrip(connectionId, uid2);
  }
}

=== FILE: service_catalog.dfy ===
/** The service catalog operations of the control plane: registering and reading
    local services, and learning, exposing and reading imported (remote) services. */
module ServiceCatalog {
  import opened Wrappers
  import opened Protocol
  import opened Gateway
  import opened Collaborators
  import opened Effects
  import Connect

  /** How the catalog reports a service to its clients: under its id, at this
      gateway's address followed by the external port recorded under that id. */
  function Advertised(st: State, id: string): ServiceRequest
  {
    ServiceRequest(id, st.myIp + ConnectionPorts(st, id).external)
  }

  // ---------------------------------------------------------------------------
  // Local services

  function AddLocalService(st: State, s: ServiceRequest): (st': State)
    ensures st'.localServices.Keys == st.localServices.Keys + {s.id}
    ensures st'.localServices == st.localServices[s.id := s.ip]
    ensures st' == st.(localServices := st'.localServices)
  {
    st.(localServices := st.localServices[s.id := s.ip])
  }

  function GetLocalService(st: State, id: string): (r: ServiceRequest)
    ensures id in st.localServices ==> r == ServiceRequest(id, st.localServices[id])
    ensures id !in st.localServices ==> r == ServiceRequest("", "")
  {
    var s := LocalService(st, id);
    ServiceRequest(s.id, s.ip)
  }

  /** Registering then reading the same id gives back the registered record. */
  lemma AddThenGetLocal(st: State, s: ServiceRequest)
    ensures GetLocalService(AddLocalService(st, s), s.id) == s
  {
  }

  /** Registering one id leaves every other id's record as it was. */
  lemma AddLocalKeepsOthers(st: State, s: ServiceRequest, id: string)
    requires id != s.id
    ensures GetLocalService(AddLocalService(st, s), id) == GetLocalService(st, id)
  {
  }

  /** Once registered, a service is a local destination: the router answers a
      connect to it itself and never contacts a peer. */
  lemma RegisteredIsRoutedLocally(st: State, s: ServiceRequest, c: ConnectRequest, targetMbgIp: string,
                                  conn: Option<Socket>, env: Env, uid: string)
    requires c.idDest == s.id
    ensures !Connect.ContactsPeer(Connect.Connect(AddLocalService(st, s), c, targetMbgIp, conn, env, uid).effects)
  {
  }

  /** Builds the advertised record of every id, one id at a time in no fixed order
      (the order a Go map range takes). */
  method AdvertiseAll(st: State, ids: set<string>) returns (r: map<string, ServiceRequest>)
    ensures r.Keys == ids
    ensures forall id :: id in r ==> r[id] == Advertised(st, id)
  {
    r := map[];
    var todo := ids;
    while todo != {}
      invariant todo <= ids
      invariant r.Keys == ids - todo
      invariant forall id :: id in r ==> r[id] == Advertised(st, id)
      decreases todo
    {
      var id :| id in todo;
      r := r[id := Advertised(st, id)];
      todo := todo - {id};
    }
  }

  method GetAllLocalServices(st: State) returns (r: map<string, ServiceRequest>)
    ensures r.Keys == st.localServices.Keys
    ensures forall id :: id in r ==> r[id].id == id && r[id].ip == st.myIp + ConnectionPorts(st, id).external
  {
    r := AdvertiseAll(st, st.localServices.Keys);
  }

  // ---------------------------------------------------------------------------
  // Remote services

  /** The outcome of learning a remote service: the updated catalog and the effects. */
  datatype Exposure = Exposure(state: State, effects: seq<Effect>)

  /** The admission question for a newly learned remote service. */
  function RemoteServiceQuestion(e: ExposeRequest): RemoteServiceAttr
  {
    RemoteServiceAttr(e.id, e.mbgId)
  }

  /** Records the remote service, then, if admitted and ports are free, starts one
      local listener standing in for it. */
  function AddRemoteService(st: State, e: ExposeRequest, env: Env): (x: Exposure)
    ensures x.state == st.(remoteServices := st.remoteServices[e.id := RemoteEntry(e.ip, e.mbgId)])
    ensures !Admits(env.admitRemoteService(RemoteServiceQuestion(e))) ==> x.effects == []
    ensures env.freePorts(e.id).err.Some? ==> x.effects == []
    ensures SpawnsNothing(x.effects) <==>
      !Admits(env.admitRemoteService(RemoteServiceQuestion(e))) || env.freePorts(e.id).err.Some?
    ensures !SpawnsNothing(x.effects) ==>
      var p := env.freePorts(e.id).ports;
      x.effects == [PortsAllocated(e.id, p), ListenerStarted(Listener(e.id, p.local, env.mbgTarget(e.mbgId), st.certs))]
  {
    var st' := st.(remoteServices := st.remoteServices[e.id := RemoteEntry(e.ip, e.mbgId)]);
    var policyResp := env.admitRemoteService(RemoteServiceQuestion(e));
    if policyResp.AdmissionFailed? then Exposure(st', [])
    else if policyResp.action == Deny then Exposure(st', [])
    else
      var myServicePort := env.freePorts(e.id);
      if myServicePort.err.Some? then Exposure(st', [])
      else
        var mbgTarget := env.mbgTarget(e.mbgId);
        var started := ListenerStarted(Listener(e.id, myServicePort.ports.local, mbgTarget, st.certs));
        var x := Exposure(st', [PortsAllocated(e.id, myServicePort.ports), started]);
        assert Spawns(x.effects[1]);
        x
  }

  function GetRemoteService(st: State, id: string): (r: ServiceRequest)
    ensures id in st.remoteServices ==> r == Advertised(st, id)
    ensures id !in st.remoteServices ==> r == Advertised(st, "")
  {
    var s := RemoteService(st, id);
    ServiceRequest(s.id, st.myIp + ConnectionPorts(st, s.id).external)
  }

  method GetAllRemoteServices(st: State) returns (r: map<string, ServiceRequest>)
    ensures r.Keys == st.remoteServices.Keys
    ensures forall id :: id in r ==> r[id] == GetRemoteService(st, id)
  {
    r := AdvertiseAll(st, st.remoteServices.Keys);
  }

  /** The record is kept whatever admission and the port tracker answer: reading
      the id back afterwards always finds it. */
  lemma ExposureIsRecorded(st: State, e: ExposeRequest, env: Env)
    ensures var st' := AddRemoteService(st, e, env).state;
      && e.id in st'.remoteServices
      && st'.remoteServices[e.id] == RemoteEntry(e.ip, e.mbgId)
      && GetRemoteService(st', e.id) == Advertised(st', e.id)
  {
  }

  /** An exposure starts at most one listener, and only for the exposed id. */
  lemma ExposureStartsAtMostOneListener(st: State, e: ExposeRequest, env: Env)
    ensures var fx := AddRemoteService(st, e, env).effects;
      && |fx| <= 2
      && forall i :: 0 <= i < |fx| && fx[i].ListenerStarted? ==> fx[i].listener.serviceId == e.id && i == 1
  {
  }
}

=== FILE: wrappers.dfy ===
/** The two shapes a Go `(value, error)` return takes in this model. */
module Wrappers {

  datatype Option<+T> = None | Some(value: T)

  /** A value, or the text of the Go error returned instead of it. */
  datatype Result<+T> = Ok(value: T) | Err(error: string)

  /** The elements an option holds: empty for None, a singleton for Some. */
  function Elements<T>(o: Option<T>): (s: set<T>)
    ensures o.None? <==> s == {}
    ensures o.Some? ==> o.value in s && |s| == 1
  {
    if o.Some? then {o.value} else {}
  }
}
